=== FILE: README.md ===
# Shortly dashboard: quick create, recent links and the HTTP wrapper

A Dafny model of the client-side logic of a URL-shortening dashboard. Three parts of it hold real logic:

- **Quick create** (`apps/dashboard/components/QuickCreate.tsx`). The form takes a destination URL and either a random or a custom alias. While a custom alias is typed, its availability is checked against the backend after a debounce. Submission is gated on that answer. The short URL is extracted from a loosely shaped backend answer, shown in a success panel, and dismissed after a 15-second countdown.
- **Recent links** (`components/dashboard/RecentLinks.tsx`). This card loads the latest links once and shows one of four screens. It shortens long destinations to 40 characters plus "...", gives each link a relative age ("Just now", "5m ago", "3h ago", "2d ago" or a calendar date) and has a copy button per link.
- **HTTP wrapper** (`lib/api.ts`). Its response interceptor turns every failure into a rejection with one chosen message. The verb helpers build request configurations that override the caller's `method`, `url` and `data`.

## Layout

- `wrappers.dfy`: `Option` and `Result`.
- `decimal.dfy`: how integers print inside template literals, and the inverse that reads them back.
- `js.dfy`: the loosely shaped JavaScript values the code handles (`JsValue`). It defines truthiness, `?.` and `.` lookups, object spread, `||`, `${…}` interpolation, the `+` in a template, and the short link `${baseUrl}/${slug}` that both widgets build. These are defined once and used by the other modules.
- `api.dfy`: the error normaliser (`Reject`, `Interceptor`), the configuration builders and `Settle`/`Request`. `Settle` gives what an awaited helper yields from the transport's raw outcome.
- `quick_create.dfy`: the pure rules and the class `QuickCreateForm`. Each handler, effect and timer of the widget is an event method. Timers and requests are discrete events: the debounce timer fires, a check is answered, a submit is answered, a tick, the fade timer, the clear timer, a copy reset.
- `recent_links.dfy`: `Truncate`, the age buckets, the screen selection and the class `RecentLinksCard`.

Environment-dependent inputs are parameters:
- the public base URL (`Option<string>`, where an unset variable prints as `undefined`);
- the schema library's URL test (`isUrl`);
- the milliseconds elapsed since a creation date (`None` when the date does not parse, i.e. NaN);
- the browser's calendar text;
- the clipboard's success;
- the transport's raw outcome.

The five helpers `get`, `del`, `post`, `put` and `patch` are `Api.Get`, `Api.Del`, `Api.Post`, `Api.Put` and `Api.Patch`: each is `Request` applied to the matching configuration builder.

## Model

| member | source | states |
|---|---|---|
| `Decimal.NatToDecimal` | components/dashboard/RecentLinks.tsx:71-73 | a count prints as digits only, non-empty, with a leading zero exactly for 0 |
| `Decimal.ValueOfNatToDecimal` | components/dashboard/RecentLinks.tsx:71-73 | reading a printed count back gives the count |
| `Decimal.NatToDecimalInjective` | components/dashboard/RecentLinks.tsx:71-73 | different counts print differently |
| `Decimal.IntToDecimal` | components/dashboard/RecentLinks.tsx:71-73 | `${n}` for an integer: a leading "-" exactly for a negative value, and the digits after it read back as the magnitude |
| `Js.Truthy` | apps/dashboard/components/QuickCreate.tsx:185-196 | the truthiness tested by `\|\|`, `&&` and `if`: false, 0, "", null and undefined are falsy, everything else truthy (a definition, used by every truthiness claim below) |
| `Js.Prop` | lib/api.ts:70 | `v?.key`: a defined result is the object's own field under `key`, and an object's own field is always the result; anything else, null and undefined included, gives undefined |
| `Js.Spread` | lib/api.ts:80 | `{...v}` copies exactly an object's own fields, each with its value, and nothing for any other value |
| `Js.NewError` | lib/api.ts:60 | `new Error(message)` has that `message` and carries neither `config` nor `code` |
| `Js.ToStr` | apps/dashboard/components/QuickCreate.tsx:209 | `${v}`: a string as itself, a number via `IntToDecimal`, "undefined", "null", "true"/"false", "[object Object]" for an object; an empty array or one holding only null or undefined prints as "", and two strings in an array are joined by "," |
| `Js.Or` | lib/api.ts:70 | `a \|\| b` is `a` when truthy, else `b`; the result is truthy iff either operand is |
| `Js.Read` | apps/dashboard/components/QuickCreate.tsx:185 | a plain `.` read gives the same value as `?.` on anything but null and undefined, and raises a TypeError naming the value and key on those two |
| `Js.PlusText` | apps/dashboard/components/QuickCreate.tsx:207 | `baseURL + url` concatenates two strings, and two undefined operands print "NaN" |
| `Api.IsTimeout` | lib/api.ts:57 | the timeout test: the error's `code` is "ECONNABORTED" (a definition, used by `Reject` and `Interceptor`) |
| `Api.IsExpected` | lib/api.ts:55 | the client-error test: a response exists and its status is within [400, 500) (a definition, used by `Interceptor`) |
| `Api.BackendMessage` | lib/api.ts:70 | `error.response?.data?.message`: undefined as soon as a link of the chain is missing (a definition, used by `ChosenMessage`) |
| `Api.ChosenMessage` | lib/api.ts:70 | the message is always truthy and chosen in order: the backend's `response.data.message`, else the error's own message, else "Something went wrong"; empty strings fall through |
| `Api.Reject` | lib/api.ts:57-80 | a timeout (`code` "ECONNABORTED") is rejected with a fresh error carrying "Request timed out. Please try again." whatever else it holds; any other error is rejected as a copy of all its fields with only `message` replaced by the chosen message |
| `Api.Interceptor` | lib/api.ts:53-81 | the rejection is `Reject`; a timeout logs only the timeout; otherwise "unexpected" is logged exactly when the error is not a 4xx response, and "unauthorized" exactly for status 401; the two never occur together |
| `Api.StatusOnlyChangesLogs` | lib/api.ts:55-80 | changing the response status (and so the expected/unexpected class) leaves the chosen message alone and changes the rejection only by that same status |
| `Api.GetConfig` | lib/api.ts:93-95 | the caller's config with `method` forced to GET and `url` to the argument; all other caller fields kept |
| `Api.DelConfig` | lib/api.ts:107-110 | as GetConfig, with DELETE |
| `Api.PostConfig` | lib/api.ts:97-100 | the caller's config with `method` POST, `url` and `data` forced over the caller's values |
| `Api.PutConfig` | lib/api.ts:102-105 | as PostConfig, with PUT |
| `Api.PatchConfig` | lib/api.ts:112-115 | as PostConfig, with PATCH |
| `Api.Settle` | lib/api.ts:45-90 | a successful request yields the response's `data` field; a failed one rejects with the normalised error, whose message is truthy |
| `Api.Request` | lib/api.ts:87-90 | `request` succeeds iff the transport does, yielding `data`, and otherwise rejects with `Reject` of the transport's error |
| `Api.Get` | lib/api.ts:92-95 | the transport is sent GET of the given URL over the caller's configuration; the helper yields the response's `data` or rejects with `Reject` of the transport's error |
| `Api.Del` | lib/api.ts:107-110 | as `Get`, with DELETE |
| `Api.Post` | lib/api.ts:97-100 | the transport is sent POST of the given URL and body over the caller's configuration; the outcome as for `Get` |
| `Api.Put` | lib/api.ts:102-105 | as `Post`, with PUT |
| `Api.Patch` | lib/api.ts:112-115 | as `Post`, with PATCH |
| `QuickCreate.SlugRuleHolds` | apps/dashboard/components/QuickCreate.tsx:30-38 | the refinement: a custom alias must be truthy and at least 3 characters long, a random one needs nothing (a definition; its consequences are `SlugRule`) |
| `QuickCreate.FormValid` | apps/dashboard/components/QuickCreate.tsx:26-38 | the whole schema: the destination passes the URL test and the refinement holds (a definition; its consequences are `SlugRule`) |
| `QuickCreate.SlugRule` | apps/dashboard/components/QuickCreate.tsx:26-38 | with a random alias the form is valid iff the destination is a URL, whatever the alias field holds; with a custom alias, iff also the alias is present with at least 3 characters |
| `QuickCreate.CanSubmit` | apps/dashboard/components/QuickCreate.tsx:164 | `canSubmit`: random mode, or custom mode with the stored answer literally `true` (a definition; its consequences are `SubmitGate`) |
| `QuickCreate.SubmitEnabled` | apps/dashboard/components/QuickCreate.tsx:421 | the button is enabled when `canSubmit` holds and no check runs (a definition; its consequences are `SubmitGate`) |
| `QuickCreate.SubmitGate` | apps/dashboard/components/QuickCreate.tsx:164 | the button is enabled only when no check runs; in random mode always then; in custom mode exactly when the stored answer is literally `true` |
| `QuickCreate.Payload` | apps/dashboard/components/QuickCreate.tsx:173-176 | the body carries the destination, and the custom alias only in custom mode (undefined otherwise) |
| `QuickCreate.ValidCustomPayload` | apps/dashboard/components/QuickCreate.tsx:30-38 | a valid custom-mode form posts a string alias of at least 3 characters |
| `Js.ShortLink` | apps/dashboard/components/QuickCreate.tsx:192 | `${baseUrl}/${slug}` ends in "/" and the slug; it starts with "undefined/" when the base URL is unset |
| `QuickCreate.WorkingObject` | apps/dashboard/components/QuickCreate.tsx:185-187 | the first element of a non-empty `data` array, else a truthy `data`, else the response itself; an empty array is kept as is; a null or undefined body raises the TypeError of reading `data` |
| `QuickCreate.ExtractShortUrl` | apps/dashboard/components/QuickCreate.tsx:184-201 | the first of, in order, the working object's truthy `short_url`, the link `${baseUrl}/${slug}` from its truthy `slug`, the body's truthy `short_url`, the link from the body's truthy `slug`; an extracted URL is always truthy; otherwise "Unable to extract short URL from response" is raised, or the TypeError for a null or undefined body |
| `QuickCreate.ExtractFailsIff` | apps/dashboard/components/QuickCreate.tsx:185-201 | extraction fails exactly when the body is null or undefined, or neither the working object's nor the body's `short_url` and `slug` is truthy |
| `QuickCreate.NullBodyRaisesTypeError` | apps/dashboard/components/QuickCreate.tsx:185-209 | a `null` body fails with the TypeError of reading `data`, and the banner shows that message followed by "(Attempted: NaN)" |
| `QuickCreate.ExtractFromDataArray` | apps/dashboard/components/QuickCreate.tsx:183-190 | the documented shape `{ data: [{ short_url, … }, …] }` yields the first element's `short_url` |
| `QuickCreate.TopLevelFallbacksNeedData` | apps/dashboard/components/QuickCreate.tsx:185-196 | without a truthy `data` the body is its own working object: extraction succeeds exactly when the body's own `short_url` or `slug` is truthy |
| `QuickCreate.SubmitFailureText` | apps/dashboard/components/QuickCreate.tsx:205-209 | the banner is the error's message, or the generic "Failed to create short link. Please try again." when it has none, then " (Attempted: ", the text of `config.baseURL + config.url` (JavaScript `+`), and ")" |
| `QuickCreate.ExtractFailureText` | apps/dashboard/components/QuickCreate.tsx:197-209 | an unusable answer is reported as "Unable to extract short URL from response (Attempted: NaN)" |
| `QuickCreate.TransportFailureKeepsMessage` | apps/dashboard/components/QuickCreate.tsx:205-209 | a failed POST that is not a timeout (`code` other than "ECONNABORTED") and whose configuration has string `baseURL` and `url` (whatever else it holds) shows the interceptor's chosen message and `baseURL` followed by `url`; the generic text is never used for it |
| `QuickCreate.AfterTick` | apps/dashboard/components/QuickCreate.tsx:152-161 | a tick lowers the countdown by exactly 1 only while a URL is shown and the count is positive, and never makes it negative |
| `QuickCreate.CountdownFromStart` | apps/dashboard/components/QuickCreate.tsx:127-161 | from 15, n ticks leave max(15 − n, 0) |
| `QuickCreate.QuickCreateForm.constructor` | apps/dashboard/components/QuickCreate.tsx:50-69 | initial state: random alias, empty fields, no URL, countdown 15, no availability answer, nothing pending |
| `QuickCreate.QuickCreateForm.SetDestination` | apps/dashboard/components/QuickCreate.tsx:319-325 | typing the destination changes only that field |
| `QuickCreate.QuickCreateForm.AliasChanged` | apps/dashboard/components/QuickCreate.tsx:98-124 | the armed check is cancelled, availability and its error reset to null, and a new check armed exactly for a non-empty custom alias |
| `QuickCreate.QuickCreateForm.SetCustomSlug` | apps/dashboard/components/QuickCreate.tsx:97-124 | a changed alias resets availability and error, so in custom mode the button is disabled until a new answer; an unchanged value changes nothing |
| `QuickCreate.QuickCreateForm.SetSlugType` | apps/dashboard/components/QuickCreate.tsx:334-337 | switching the alias type resets availability and error, and disables the button when switching to custom |
| `QuickCreate.QuickCreateForm.CheckTimerFires` | apps/dashboard/components/QuickCreate.tsx:72-83 | an alias shorter than 3 sends nothing and clears availability and error; otherwise GET `/check/<alias>` is sent, "checking" is set and the error cleared |
| `QuickCreate.Availability` | apps/dashboard/components/QuickCreate.tsx:83-91 | the `try` block yields the body's `available` exactly when the request succeeded and its body is neither null nor undefined; otherwise the `catch` block runs |
| `QuickCreate.QuickCreateForm.ApplyAnswer` | apps/dashboard/components/QuickCreate.tsx:84-94 | the stored answer is the backend's `available`, with the "taken" error when it is falsy and the previous error otherwise; a failed request or a null or undefined body stores null and "Failed to check availability"; checking ends in every case |
| `QuickCreate.QuickCreateForm.CheckResolves` | apps/dashboard/components/QuickCreate.tsx:82-94 | as written: the check leaves the outstanding set and its answer is stored, whatever alias the field now holds |
| `QuickCreate.QuickCreateForm.CheckResolvesIfCurrent` | apps/dashboard/components/QuickCreate.tsx:82-94 | corrected: an answer for the alias now in the field is stored as `ApplyAnswer` does (answer, "taken" error or failure error, checking ends); a stale answer changes neither answer nor error; so the stored answer always belongs to the current alias |
| `QuickCreate.QuickCreateForm.ShowUrl` | apps/dashboard/components/QuickCreate.tsx:126-150 | a new URL restarts the countdown at 15, stops the fade and arms the fade and clear timers; a change to null disarms them |
| `QuickCreate.QuickCreateForm.Submit` | apps/dashboard/components/QuickCreate.tsx:166-178 | nothing happens unless the button is enabled and the form valid; otherwise error, URL, copied mark and fade are cleared and POST `/shorten` is sent with the payload |
| `QuickCreate.QuickCreateForm.SubmitResolves` | apps/dashboard/components/QuickCreate.tsx:178-210 | an extracted URL is shown: a new one restarts the countdown at 15, stops the fade and arms the fade and clear timers, the same one leaves the panel as it was; otherwise the failure text is put in the banner and the URL, countdown, fade and timers are left as they were |
| `QuickCreate.QuickCreateForm.Tick` | apps/dashboard/components/QuickCreate.tsx:152-161 | the countdown follows AfterTick and stays within 0..15 |
| `QuickCreate.QuickCreateForm.FadeTimerFires` | apps/dashboard/components/QuickCreate.tsx:133-136 | the panel starts fading |
| `QuickCreate.QuickCreateForm.ClearTimerFires` | apps/dashboard/components/QuickCreate.tsx:138-143 | the URL becomes null, the copied mark and the fade are cleared |
| `QuickCreate.QuickCreateForm.Copy` | apps/dashboard/components/QuickCreate.tsx:213-223 | without a URL nothing happens; otherwise the URL's text is written, and only a successful write sets the copied mark |
| `QuickCreate.QuickCreateForm.CopyResetFires` | apps/dashboard/components/QuickCreate.tsx:219 | the copied mark is cleared |
| `QuickCreate.StaleAnswerEnablesSubmit` | apps/dashboard/components/QuickCreate.tsx:82-94 | as written, the answer for "abc" arriving after the field became "abcd" enables the button for "abcd" |
| `QuickCreate.StaleAnswerDropped` | apps/dashboard/components/QuickCreate.tsx:82-94 | with stale answers dropped, the same events leave the button disabled |
| `QuickCreate.QuickCreateForm.EnabledMeansCurrentAlias` | apps/dashboard/components/QuickCreate.tsx:99-112 | in a form whose stored answer belongs to the current alias (`AnswerIsCurrent`), an enabled button in custom mode means that alias itself was answered `true` |
| `RecentLinks.Truncate` | components/dashboard/RecentLinks.tsx:81-84 | a URL that fits is returned unchanged; a longer one becomes its first `maxLength` characters plus "...", of length `maxLength + 3` |
| `RecentLinks.TruncateDefault` | components/dashboard/RecentLinks.tsx:81-83 | with the default limit of 40 the text is at most 43 characters and starts with the URL's first 40 characters |
| `RecentLinks.AgeOf` | components/dashboard/RecentLinks.tsx:62-78 | exactly one bucket by elapsed milliseconds: under 1 minute "just now", under 1 hour minutes, under 1 day hours, under 7 days days, else (or NaN) a calendar date; each count is the floored count |
| `RecentLinks.AgeMonotone` | components/dashboard/RecentLinks.tsx:70-73 | an older link never falls in an earlier bucket |
| `RecentLinks.AgeLabel` | components/dashboard/RecentLinks.tsx:70-73 | "Just now", the calendar text, or the printed count followed by "m ago", "h ago" or "d ago" according to the bucket |
| `RecentLinks.FormatDate` | components/dashboard/RecentLinks.tsx:62-79 | the label is "Just now", a count ending in "m ago", "h ago" or "d ago", or the calendar text, according to the bucket |
| `RecentLinks.LabelShowsCount` | components/dashboard/RecentLinks.tsx:66-73 | the digits of a relative label read back as the floored number of minutes, hours or days |
| `RecentLinks.RowFor` | components/dashboard/RecentLinks.tsx:177-237 | a row links to `${baseUrl}/${slug}`, is marked copied iff its id is the copied one, shows the destination truncated to 40 characters (at most 43 with "...") with the full URL as title, the click count, and the age label of its creation date |
| `RecentLinks.Render` | components/dashboard/RecentLinks.tsx:86-257 | precedence is loading, then a non-empty error, then "No links yet" for an empty list, then one row per link; the "View all links" footer appears iff there are at least 10 links |
| `RecentLinks.RecentLinksCard.constructor` | components/dashboard/RecentLinks.tsx:28-38 | the card starts loading, with no links, no error and nothing copied |
| `RecentLinks.RecentLinksCard.FetchStarts` | components/dashboard/RecentLinks.tsx:34-38 | once the card has appeared, GET `/recent?limit=5` is sent with no other configuration |
| `RecentLinks.RecentLinksCard.FetchResolves` | components/dashboard/RecentLinks.tsx:34-46 | success stores `data`, or the empty list when absent; failure stores "Failed to load recent links"; loading ends in both cases |
| `RecentLinks.RecentLinksCard.Copy` | components/dashboard/RecentLinks.tsx:51-60 | the text written is `${baseUrl}/${slug}`; only a successful write sets the copied id, and a failed write changes nothing |
| `RecentLinks.RecentLinksCard.CopyResetFires` | components/dashboard/RecentLinks.tsx:56 | the copied id is cleared |
| `RecentLinks.RecentLinksCard.CurrentScreen` | components/dashboard/RecentLinks.tsx:86-153 | while loading the spinner is shown, after a failure the load error, and a list only when there are links |

Notes on behaviour the code has and a reader might not expect:
- A successful availability answer leaves the alias error as it was. That error is null whenever the check was started by the debounce timer and nothing else arrived in between.
- A stored answer that is truthy but not the boolean `true` shows no error and still keeps the button disabled.
- The list is requested with `limit=5`, but the "View all links" footer needs at least 10 links. It therefore appears only if the backend ignores the limit.
- The interceptor's timeout rejection and the locally raised extraction error carry no request configuration. Their banner therefore reads "(Attempted: NaN)".

## Findings

| source | as written | input that shows it | evidently intended | confidence | as-written member | corrected member |
|---|---|---|---|---|---|---|
| apps/dashboard/components/QuickCreate.tsx:82-94 | an availability answer is stored whenever it arrives, even if the alias field changed after the check was sent | custom mode; type "abc"; the debounce fires and GET `/check/abc` is sent; type "abcd"; the check of "abc" answers `{ available: true }`: the button is enabled for "abcd", which was never checked | only the answer for the alias in the field may open the submit gate (the last debounced check wins) | medium, not executed | `QuickCreate.StaleAnswerEnablesSubmit` | `QuickCreate.QuickCreateForm.CheckResolvesIfCurrent` |

The class keeps both answer handlers. `CheckResolves` is the code as written. `CheckResolvesIfCurrent` drops stale answers and preserves `AnswerIsCurrent()`: a stored answer belongs to the current custom alias. Every other event method preserves that predicate too. `EnabledMeansCurrentAlias` draws the consequence for the submit gate.

## Left out

- Rendering: JSX, CSS classes, icons and the field error messages are presentation only.
- Timing: the 500 ms debounce, the 14.5 s, 15 s and 2 s timeouts and the 1 s tick are events, not clock time. The model does not relate the fade and clear timers to the number of ticks.
- Unmounting: cleanup on unmount is not modelled.
- Network and axios internals are not modelled: instance creation, interceptor registration, the 15 s client timeout and the request interceptor. The transport's outcome is an input.
- I/O: the clipboard, `window.location.reload` and console logging are left out. The interceptor's log lines are kept only as the `logs` of `Interceptor`.
- URL validation: the schema library's URL check is the parameter `isUrl`. Which validation messages are shown when several rules fail is not modelled.
- Dates: `new Date`, `Date.now` and `toLocaleDateString` become the elapsed milliseconds and the calendar text, both inputs.
- `Js.JsValue`: numbers are integers; fractions, NaN and infinities as values are not modelled. Integers are printed in plain decimal, whereas JavaScript prints those of magnitude 10^21 or more in exponent form ("1e+21").
- `Js.Prop`: a lookup on a string, number or array yields undefined. This is true in JavaScript for the property names the code reads. A plain `.` on null or undefined, which throws, is `Js.Read`; it is used where the code reads with `.` from a value that can be null (`response.data` of a submit answer, `response.available` of a check answer).
- `Js.ReadErrorMessage`: the TypeError's text is V8's wording; other engines word it differently.
- `Js.Spread`: spreading a string or array copies no fields here, and enumerability is not modelled. A thrown `Error` is an object with an own `message`.
- `Api.IsExpected`: a non-numeric status counts as not expected; JavaScript would coerce a numeric string.
- React: each event is applied atomically. An effect re-runs when its dependency changes by value; identity of objects (`Object.is`) is not modelled.
- `RecentLinks.RecentLinksCard.FetchResolves`: the response's `data` is taken to be a list of link records or absent. A `data` of another shape, which would break the list rendering, is not modelled. A null or undefined body, whose `response.data` throws into the `catch` block, is passed as the failure outcome.
- Strings are sequences of characters, standing for UTF-16 code units in `length` and `substring`.
- Not part of this model:
  - components/dashboard/QuickCreate.tsx, components/dashboard/Sidebar.tsx, apps/dashboard/components/DashboardShell.tsx and apps/dashboard/components/Header.tsx: they hold only a radio toggle, sidebar toggles and a highlight.
  - The landing pages, the page files and next.config.ts: static markup and configuration.

=== FILE: api.dfy ===
/** The HTTP client wrapper: the response interceptor's failure path, which
    turns every failed request into a rejection with one chosen message, and
    the verb helpers, which build a request configuration over the caller's.
    The transport itself (axios, the network) is a parameter. */
module Api {
  import opened Wrappers
  import opened Js

  /** A request configuration: the fields of an axios config object. */
  type Config = map<string, JsValue>

  const TimeoutCode := "ECONNABORTED"
  const TimeoutMessage := "Request timed out. Please try again."
  const DefaultMessage := "Something went wrong"

  predicate IsTimeout(error: JsValue) {
    Prop(error, "code") == Str(TimeoutCode)
  }

  /** A client error: a response exists and its status is in [400, 500).
      A status that is not a number counts as not expected. */
  predicate IsExpected(error: JsValue) {
    var response := Prop(error, "response");
    Truthy(response) && match Prop(response, "status")
      case Num(status) => 400 <= status < 500
      case _ => false
  }

  /** `error.response?.data?.message`, the backend's own explanation. */
  function BackendMessage(error: JsValue): JsValue {
    Prop(Prop(Prop(error, "response"), "data"), "message")
  }

  /** The message of a non-timeout rejection: the backend's message if truthy,
      else the error's own message if truthy, else the default. Empty strings
      fall through. */
  function ChosenMessage(error: JsValue): (m: JsValue)
    ensures Truthy(m)
    ensures Truthy(BackendMessage(error)) ==> m == BackendMessage(error)
    ensures !Truthy(BackendMessage(error)) && Truthy(Prop(error, "message")) ==> m == Prop(error, "message")
    ensures !Truthy(BackendMessage(error)) && !Truthy(Prop(error, "message")) ==> m == Str(DefaultMessage)
  {
    Or(Or(BackendMessage(error), Prop(error, "message")), Str(DefaultMessage))
  }

  /** The value the interceptor rejects with. A timeout becomes a fresh error
      with the timeout message, whatever else it carries; any other failure
      becomes a copy of every field of the error with only `message` replaced. */
  function Reject(error: JsValue): (r: JsValue)
    ensures r.Obj? && Truthy(Prop(r, "message"))
    ensures IsTimeout(error) ==> r == NewError(TimeoutMessage)
    ensures !IsTimeout(error) ==> Prop(r, "message") == ChosenMessage(error)
    ensures !IsTimeout(error) ==> r.fields.Keys == Spread(error).Keys + {"message"}
    ensures !IsTimeout(error) ==>
      forall k :: k in Spread(error) && k != "message" ==> r.fields[k] == Spread(error)[k]
  {
    if IsTimeout(error) then NewError(TimeoutMessage)
    else Obj(Spread(error)["message" := ChosenMessage(error)])
  }

  /** What the interceptor writes to the console; nothing else depends on it. */
  datatype Log = TimedOut | Unexpected | Unauthorized

  datatype Handling = Handling(rejected: JsValue, logs: seq<Log>)

  /** The interceptor's failure handler: the rejection and the log lines. */
  function Interceptor(error: JsValue): (h: Handling)
    ensures h.rejected == Reject(error)
    ensures IsTimeout(error) ==> h.logs == [TimedOut]
    ensures !IsTimeout(error) ==> (Unexpected in h.logs <==> !IsExpected(error))
    ensures !IsTimeout(error) ==> (Unauthorized in h.logs <==> Prop(Prop(error, "response"), "status") == Num(401))
    ensures !(Unexpected in h.logs && Unauthorized in h.logs)
  {
    if IsTimeout(error) then Handling(Reject(error), [TimedOut])
    else
      var status := Prop(Prop(error, "response"), "status");
      Handling(Reject(error),
               (if IsExpected(error) then [] else [Unexpected]) +
               (if status == Num(401) then [Unauthorized] else []))
  }

  /** The error with `response.status` replaced, when it has a response object. */
  function WithStatus(error: JsValue, status: int): JsValue {
    var response := Prop(error, "response");
    if error.Obj? && response.Obj? then
      Obj(error.fields["response" := Obj(response.fields["status" := Num(status)])])
    else error
  }

  /** The status, and so the expected/unexpected classification, changes
      only what is logged: the rejection of an error with another status is
      the same rejection with that other status. */
  lemma StatusOnlyChangesLogs(error: JsValue, status: int)
    ensures Reject(WithStatus(error, status)) == WithStatus(Reject(error), status)
    ensures ChosenMessage(WithStatus(error, status)) == ChosenMessage(error)
  {
  }

  /** The caller's configuration, or none when the caller passed none. */
  function Base(config: Option<Config>): Config {
    if config.Some? then config.value else map[]
  }

  /** `r` is `base` with the fields of `forced` written over it: every forced
      field has the forced value, every other field of `base` is kept, and
      there is nothing else. */
  ghost predicate Overrides(base: Config, forced: Config, r: Config) {
    && r.Keys == base.Keys + forced.Keys
    && (forall k :: k in forced ==> r[k] == forced[k])
    && (forall k :: k in base && k !in forced ==> r[k] == base[k])
  }

  /** `{ ...config, method: 'GET', url }` */
  function GetConfig(url: string, config: Option<Config>): (r: Config)
    ensures Overrides(Base(config), map["method" := Str("GET"), "url" := Str(url)], r)
  {
    Base(config)["method" := Str("GET")]["url" := Str(url)]
  }

  /** `{ ...config, method: 'DELETE', url }` */
  function DelConfig(url: string, config: Option<Config>): (r: Config)
    ensures Overrides(Base(config), map["method" := Str("DELETE"), "url" := Str(url)], r)
  {
    Base(config)["method" := Str("DELETE")]["url" := Str(url)]
  }

  /** `{ ...config, method: 'POST', url, data }` */
  function PostConfig(url: string, data: JsValue, config: Option<Config>): (r: Config)
    ensures Overrides(Base(config), map["method" := Str("POST"), "url" := Str(url), "data" := data], r)
  {
    Base(config)["method" := Str("POST")]["url" := Str(url)]["data" := data]
  }

  /** `{ ...config, method: 'PUT', url, data }` */
  function PutConfig(url: string, data: JsValue, config: Option<Config>): (r: Config)
    ensures Overrides(Base(config), map["method" := Str("PUT"), "url" := Str(url), "data" := data], r)
  {
    Base(config)["method" := Str("PUT")]["url" := Str(url)]["data" := data]
  }

  /** `{ ...config, method: 'PATCH', url, data }` */
  function PatchConfig(url: string, data: JsValue, config: Option<Config>): (r: Config)
    ensures Overrides(Base(config), map["method" := Str("PATCH"), "url" := Str(url), "data" := data], r)
  {
    Base(config)["method" := Str("PATCH")]["url" := Str(url)]["data" := data]
  }

  /** What awaiting a helper yields, given the transport's raw outcome (the
      response object, or the error axios raised): the response's `data`
      field, or the interceptor's rejection. */
  function Settle(raw: Result<JsValue, JsValue>): (r: Result<JsValue, JsValue>)
    ensures r.Ok? <==> raw.Ok?
    ensures raw.Ok? ==> r.value == Prop(raw.value, "data")
    ensures raw.Err? ==> r.error == Reject(raw.error) && Truthy(Prop(r.error, "message"))
  {
    match raw
    case Ok(response) => Ok(Prop(response, "data"))
    case Err(error) => Err(Interceptor(error).rejected)
  }

  /** `request(config)` over a transport `send`. */
  function Request(config: Config, send: Config -> Result<JsValue, JsValue>): (r: Result<JsValue, JsValue>)
    ensures r.Ok? <==> send(config).Ok?
    ensures r.Ok? ==> r.value == Prop(send(config).value, "data")
    ensures r.Err? ==> r.error == Reject(send(config).error)
  {
    Settle(send(config))
  }

  /** `get(url, config)`: the transport is sent a GET of `url` over the
      caller's configuration, and the outcome is settled as `request` does. */
  function Get(url: string, config: Option<Config>, send: Config -> Result<JsValue, JsValue>): (r: Result<JsValue, JsValue>)
    ensures var sent := GetConfig(url, config);
      && sent["method"] == Str("GET") && sent["url"] == Str(url)
      && (r.Ok? <==> send(sent).Ok?)
      && (r.Ok? ==> r.value == Prop(send(sent).value, "data"))
      && (r.Err? ==> r.error == Reject(send(sent).error))
  {
    Request(GetConfig(url, config), send)
  }

  /** `del(url, config)`: as `get`, with DELETE. */
  function Del(url: string, config: Option<Config>, send: Config -> Result<JsValue, JsValue>): (r: Result<JsValue, JsValue>)
    ensures var sent := DelConfig(url, config);
      && sent["method"] == Str("DELETE") && sent["url"] == Str(url)
      && (r.Ok? <==> send(sent).Ok?)
      && (r.Ok? ==> r.value == Prop(send(sent).value, "data"))
      && (r.Err? ==> r.error == Reject(send(sent).error))
  {
    Request(DelConfig(url, config), send)
  }

  /** `post(url, data, config)`: the transport is sent a POST of `data` to
      `url` over the caller's configuration. */
  function Post(url: string, data: JsValue, config: Option<Config>, send: Config -> Result<JsValue, JsValue>): (r: Result<JsValue, JsValue>)
    ensures var sent := PostConfig(url, data, config);
      && sent["method"] == Str("POST") && sent["url"] == Str(url) && sent["data"] == data
      && (r.Ok? <==> send(sent).Ok?)
      && (r.Ok? ==> r.value == Prop(send(sent).value, "data"))
      && (r.Err? ==> r.error == Reject(send(sent).error))
  {
    Request(PostConfig(url, data, config), send)
  }

  /** `put(url, data, config)`: as `post`, with PUT. */
  function Put(url: string, data: JsValue, config: Option<Config>, send: Config -> Result<JsValue, JsValue>): (r: Result<JsValue, JsValue>)
    ensures var sent := PutConfig(url, data, config);
      && sent["method"] == Str("PUT") && sent["url"] == Str(url) && sent["data"] == data
      && (r.Ok? <==> send(sent).Ok?)
      && (r.Ok? ==> r.value == Prop(send(sent).value, "data"))
      && (r.Err? ==> r.error == Reject(send(sent).error))
  {
    Request(PutConfig(url, data, config), send)
  }

  /** `patch(url, data, config)`: as `post`, with PATCH. */
  function Patch(url: string, data: JsValue, config: Option<Config>, send: Config -> Result<JsValue, JsValue>): (r: Result<JsValue, JsValue>)
    ensures var sent := PatchConfig(url, data, config);
      && sent["method"] == Str("PATCH") && sent["url"] == Str(url) && sent["data"] == data
      && (r.Ok? <==> send(sent).Ok?)
      && (r.Ok? ==> r.value == Prop(send(sent).value, "data"))
      && (r.Err? ==> r.error == Reject(send(sent).error))
  {
    Request(PatchConfig(url, data, config), send)
  }
}

=== FILE: decimal.dfy ===
/** Decimal rendering of integers, as JavaScript's template literals print them
    (`${n}` for an integral number). ValueOf is the inverse used to state that
    a rendered number can be read back. */
module Decimal {

  predicate IsDigit(c: char) {
    '0' <= c <= '9'
  }

  predicate AllDigits(s: string) {
    forall i :: 0 <= i < |s| ==> IsDigit(s[i])
  }

  function DigitChar(d: nat): (c: char)
    requires d < 10
    ensures IsDigit(c)
    ensures c as int - '0' as int == d
  {
    ('0' as int + d) as char
  }

  /** The shortest decimal numeral of n: digits only, no leading zero. */
  function NatToDecimal(n: nat): (s: string)
    ensures |s| >= 1
    ensures AllDigits(s)
    ensures s[0] == '0' <==> n == 0
    decreases n
  {
    if n < 10 then [DigitChar(n)] else NatToDecimal(n / 10) + [DigitChar(n % 10)]
  }

  /** `${n}` for an integer: a minus sign before the magnitude when negative. */
  function IntToDecimal(n: int): (s: string)
    ensures n >= 0 ==> s == NatToDecimal(n)
    ensures n < 0 ==> s == "-" + NatToDecimal(-n)
    ensures |s| >= 1 && (s[0] == '-' <==> n < 0)
    ensures n >= 0 ==> AllDigits(s) && ValueOf(s) == n
    ensures n < 0 ==> AllDigits(s[1..]) && ValueOf(s[1..]) == -n
  {
    if n < 0 then
      ValueOfNatToDecimal(-n);
      assert ("-" + NatToDecimal(-n))[1..] == NatToDecimal(-n);
      "-" + NatToDecimal(-n)
    else
      ValueOfNatToDecimal(n);
      NatToDecimal(n)
  }

  /** The number a string of digits denotes. */
  function ValueOf(s: string): nat
    requires AllDigits(s)
  {
    if s == [] then 0 else ValueOf(s[..|s| - 1]) * 10 + (s[|s| - 1] as int - '0' as int)
  }

  /** Reading back a rendered natural number gives the number. */
  lemma {:induction false} ValueOfNatToDecimal(n: nat)
    ensures ValueOf(NatToDecimal(n)) == n
    decreases n
  {
    var s := NatToDecimal(n);
    if n >= 10 {
      ValueOfNatToDecimal(n / 10);
      assert s[..|s| - 1] == NatToDecimal(n / 10);
    }
  }

  /** Distinct numbers render differently. */
  lemma NatToDecimalInjective(a: nat, b: nat)
    requires NatToDecimal(a) == NatToDecimal(b)
    ensures a == b
  {
    ValueOfNatToDecimal(a);
    ValueOfNatToDecimal(b);
  }
}

=== FILE: js.dfy ===
/** The JavaScript values the dashboard handles without a fixed shape: backend
    response bodies, thrown errors, request configurations. Numbers are
    integral here (no fractions, NaN or infinities as values). */
module Js {
  import opened Wrappers
  import Decimal

  datatype JsValue =
    | Undefined
    | Null
    | Bool(b: bool)
    | Num(n: int)
    | Str(s: string)
    | Arr(items: seq<JsValue>)
    | Obj(fields: map<string, JsValue>)

  /** JavaScript truthiness: false, 0, "", null and undefined are falsy. */
  predicate Truthy(v: JsValue) {
    match v
    case Undefined => false
    case Null => false
    case Bool(b) => b
    case Num(n) => n != 0
    case Str(s) => s != ""
    case Arr(_) => true
    case Obj(_) => true
  }

  /** `v?.key` for the property names the dashboard reads: an own field of an
      object, undefined for anything else (null and undefined included). */
  function Prop(v: JsValue, key: string): (r: JsValue)
    ensures r != Undefined ==> v.Obj? && key in v.fields && r == v.fields[key]
    ensures v.Obj? && key in v.fields ==> r == v.fields[key]
  {
    if v.Obj? && key in v.fields then v.fields[key] else Undefined
  }

  /** The message of the TypeError raised by reading `key` from null or
      undefined, as V8 words it. */
  function ReadErrorMessage(v: JsValue, key: string): string {
    "Cannot read properties of " + ToStr(v) + " (reading '" + key + "')"
  }

  /** `v.key` with a plain `.`: the same value as `v?.key` on anything that
      has properties, and a TypeError on null and undefined. */
  function Read(v: JsValue, key: string): (r: Result<JsValue, string>)
    ensures r.Err? <==> v.Null? || v.Undefined?
    ensures r.Ok? ==> r.value == Prop(v, key)
    ensures r.Err? ==> r.error == ReadErrorMessage(v, key)
  {
    if v.Null? || v.Undefined? then Err(ReadErrorMessage(v, key)) else Ok(Prop(v, key))
  }

  /** The fields `{...v}` copies: an object's own fields, none for null,
      undefined and other primitives. */
  function Spread(v: JsValue): (m: map<string, JsValue>)
    ensures forall k :: k in m <==> v.Obj? && k in v.fields
    ensures forall k :: k in m ==> m[k] == Prop(v, k)
  {
    if v.Obj? then v.fields else map[]
  }

  /** `a || b`: the first operand when it is truthy, else the second. */
  function Or(a: JsValue, b: JsValue): (r: JsValue)
    ensures Truthy(a) ==> r == a
    ensures !Truthy(a) ==> r == b
    ensures Truthy(r) <==> Truthy(a) || Truthy(b)
  {
    if Truthy(a) then a else b
  }

  /** `new Error(message)` as far as the dashboard looks at it. */
  function NewError(message: string): (e: JsValue)
    ensures Prop(e, "message") == Str(message)
    ensures Prop(e, "config") == Undefined && Prop(e, "code") == Undefined
  {
    Obj(map["message" := Str(message)])
  }

  /** The text `${v}` interpolates: arrays join their elements with "," and
      print null and undefined elements as empty text. */
  function ToStr(v: JsValue): (s: string)
    ensures v.Str? ==> s == v.s
    ensures v.Num? ==> s == Decimal.IntToDecimal(v.n)
    ensures v.Undefined? ==> s == "undefined"
    ensures v.Null? ==> s == "null"
    ensures v.Bool? ==> s == if v.b then "true" else "false"
    ensures v.Obj? ==> s == "[object Object]"
    ensures v == Arr([]) ==> s == ""
    ensures v == Arr([Null]) || v == Arr([Undefined]) ==> s == ""
    ensures v.Arr? && |v.items| == 2 && v.items[0].Str? && v.items[1].Str? ==>
      s == v.items[0].s + "," + v.items[1].s
    decreases v, 1
  {
    match v
    case Undefined => "undefined"
    case Null => "null"
    case Bool(b) => if b then "true" else "false"
    case Num(n) => Decimal.IntToDecimal(n)
    case Str(s) => s
    case Arr(items) =>
      assert |items| == 2 && items[0].Str? ==> items[..1] == [items[0]] && JoinPrefix(items[..1], v) == items[0].s;
      JoinPrefix(items, v)
    case Obj(_) => "[object Object]"
  }

  /** The elements of `prefix`, a prefix of the array `whole`, joined by ",". */
  function JoinPrefix(prefix: seq<JsValue>, ghost whole: JsValue): string
    requires whole.Arr? && prefix <= whole.items
    decreases whole, 0, |prefix|
  {
    if prefix == [] then ""
    else
      var last := prefix[|prefix| - 1];
      var text := if last.Undefined? || last.Null? then "" else ToStr(last);
      if |prefix| == 1 then text else JoinPrefix(prefix[..|prefix| - 1], whole) + "," + text
  }

  /** `${baseUrl}/${slug}`, the short link both dashboard widgets build
      from the public base URL; an unset base URL prints as "undefined". */
  function ShortLink(baseUrl: Option<string>, slug: JsValue): (s: string)
    ensures baseUrl.Some? && slug.Str? ==> s == baseUrl.value + "/" + slug.s
    ensures baseUrl.None? ==> |s| >= 10 && s[..10] == "undefined/"
    ensures slug.Str? ==> |s| > |slug.s| && s[|s| - |slug.s| - 1..] == "/" + slug.s
  {
    (if baseUrl.Some? then baseUrl.value else "undefined") + "/" + ToStr(slug)
  }

  /** ToNumber for the operands of a numeric `+`; None stands for NaN. */
  function ToNumber(v: JsValue): Option<int>
    requires !(v.Str? || v.Arr? || v.Obj?)
  {
    match v
    case Undefined => None
    case Null => Some(0)
    case Bool(b) => Some(if b then 1 else 0)
    case Num(n) => Some(n)
  }

  /** The text `${a + b}` interpolates: concatenation when either operand turns
      into a string, otherwise numeric addition, where NaN prints as "NaN". */
  function PlusText(a: JsValue, b: JsValue): (s: string)
    ensures a.Str? && b.Str? ==> s == a.s + b.s
    ensures a.Undefined? && b.Undefined? ==> s == "NaN"
  {
    if a.Str? || a.Arr? || a.Obj? || b.Str? || b.Arr? || b.Obj? then ToStr(a) + ToStr(b)
    else match (ToNumber(a), ToNumber(b))
      case (Some(x), Some(y)) => Decimal.IntToDecimal(x + y)
      case _ => "NaN"
  }
}

=== FILE: quick_create.dfy ===
/** The dashboard's quick-create widget: the form rule for random and custom
    aliases, the alias-availability check with its debounce, the submit gate,
    the payload and the extraction of the short URL from the backend's answer,
    and the success panel's countdown and auto-dismiss.

    Timers and requests are discrete events: a debounce timer firing, an alias
    check being answered, a submit being answered, a one-second tick, the fade
    timer and the clear timer firing. */
module QuickCreate {
  import opened Wrappers
  import opened Js
  import Api

  datatype SlugType = Random | Custom

  /** The validated form values; `customSlug` is optional in the schema. */
  datatype FormValues = FormValues(destination: string, slugType: SlugType, customSlug: Option<string>)

  const MinSlugLength := 3
  const CountdownStart := 15
  const TakenMessage := "This alias is already taken"
  const CheckFailedMessage := "Failed to check availability"
  const ExtractFailedMessage := "Unable to extract short URL from response"
  const SubmitFailedMessage := "Failed to create short link. Please try again."

  // ---------------------------------------------------------------- form rule

  /** The schema's refinement: a custom alias must be present (truthy) and
      at least three characters long; a random alias needs nothing. */
  predicate SlugRuleHolds(slugType: SlugType, customSlug: Option<string>) {
    if slugType == Custom then
      customSlug.Some? && customSlug.value != "" && |customSlug.value| >= MinSlugLength
    else true
  }

  /** The whole schema: the destination passes the URL check (`isUrl`, the
      schema library's URL test) and the refinement holds. */
  predicate FormValid(values: FormValues, isUrl: string -> bool) {
    isUrl(values.destination) && SlugRuleHolds(values.slugType, values.customSlug)
  }

  /** With a random alias the form is valid whatever the custom alias field
      holds; with a custom one exactly when that alias has at least three
      characters. */
  lemma SlugRule(values: FormValues, isUrl: string -> bool)
    ensures values.slugType == Random ==> (FormValid(values, isUrl) <==> isUrl(values.destination))
    ensures values.slugType == Custom ==>
      (FormValid(values, isUrl) <==>
         isUrl(values.destination) && values.customSlug.Some? && |values.customSlug.value| >= 3)
  {
  }

  // ---------------------------------------------------------------- submit gate

  /** `canSubmit`: a random alias, or a custom one the backend has answered
      `available === true` for. `available` is the stored answer, null when
      there is none. */
  predicate CanSubmit(slugType: SlugType, available: JsValue) {
    slugType == Random || (slugType == Custom && available == Bool(true))
  }

  /** The submit button is enabled when submission is allowed and no alias
      check is in progress. */
  predicate SubmitEnabled(slugType: SlugType, available: JsValue, checking: bool) {
    CanSubmit(slugType, available) && !checking
  }

  /** In custom mode only the literal answer `true` opens the gate: a truthy
      non-boolean answer, a missing answer or null keep it closed. */
  lemma SubmitGate(slugType: SlugType, available: JsValue, checking: bool)
    ensures SubmitEnabled(slugType, available, checking) ==> !checking
    ensures slugType == Random ==> (SubmitEnabled(slugType, available, checking) <==> !checking)
    ensures slugType == Custom ==>
      (SubmitEnabled(slugType, available, checking) <==> available == Bool(true) && !checking)
  {
  }

  // ---------------------------------------------------------------- payload

  /** The body posted to `/shorten`: the destination, and the custom alias
      only in custom mode (`undefined` otherwise). */
  function Payload(values: FormValues): (p: JsValue)
    ensures Prop(p, "destination_url") == Str(values.destination)
    ensures values.slugType == Random ==> Prop(p, "slug") == Undefined
    ensures values.slugType == Custom && values.customSlug.Some? ==> Prop(p, "slug") == Str(values.customSlug.value)
    ensures values.customSlug.None? ==> Prop(p, "slug") == Undefined
  {
    Obj(map["destination_url" := Str(values.destination),
            "slug" := if values.slugType == Custom && values.customSlug.Some?
                      then Str(values.customSlug.value) else Undefined])
  }

  /** A valid form in custom mode posts its alias, of at least three characters. */
  lemma ValidCustomPayload(values: FormValues, isUrl: string -> bool)
    requires FormValid(values, isUrl) && values.slugType == Custom
    ensures Prop(Payload(values), "slug").Str?
    ensures |Prop(Payload(values), "slug").s| >= MinSlugLength
  {
  }

  // ---------------------------------------------------------------- short URL

  /** The object the short URL is looked for in first: the first element of
      `data` when `data` is a non-empty array, else `data` when truthy, else
      the response itself. Reading `data` from a null or undefined body
      raises a TypeError. */
  function WorkingObject(response: JsValue): (w: Result<JsValue, string>)
    ensures w.Err? <==> response.Null? || response.Undefined?
    ensures w.Err? ==> w.error == ReadErrorMessage(response, "data")
    ensures w.Ok? && Truthy(Prop(response, "data")) && !Prop(response, "data").Arr? ==> w.value == Prop(response, "data")
    ensures w.Ok? && !Truthy(Prop(response, "data")) ==> w.value == response
    ensures Prop(response, "data").Arr? && |Prop(response, "data").items| > 0 ==> w == Ok(Prop(response, "data").items[0])
    ensures Prop(response, "data") == Arr([]) ==> w == Ok(Arr([]))
  {
    match Read(response, "data")
    case Err(message) => Err(message)
    case Ok(data) =>
      Ok(if Truthy(data) && data.Arr? && |data.items| > 0 then data.items[0] else Or(data, response))
  }

  /** The short URL in a response body, in this order: the working object's
      `short_url`, the link built from its `slug`, the body's own `short_url`,
      the link built from the body's `slug`; otherwise an error. A null or
      undefined body fails with the TypeError of reading its `data`. */
  function ExtractShortUrl(response: JsValue, baseUrl: Option<string>): (r: Result<JsValue, string>)
    ensures r.Ok? ==> Truthy(r.value)
    ensures r.Err? && (response.Null? || response.Undefined?) ==> r.error == ReadErrorMessage(response, "data")
    ensures r.Err? && !(response.Null? || response.Undefined?) ==> r.error == ExtractFailedMessage
    ensures WorkingObject(response).Ok? ==>
      var w := WorkingObject(response).value;
      && (Truthy(Prop(w, "short_url")) ==> r == Ok(Prop(w, "short_url")))
      && (!Truthy(Prop(w, "short_url")) && Truthy(Prop(w, "slug")) ==>
            r == Ok(Str(ShortLink(baseUrl, Prop(w, "slug")))))
      && (!Truthy(Prop(w, "short_url")) && !Truthy(Prop(w, "slug")) && Truthy(Prop(response, "short_url")) ==>
            r == Ok(Prop(response, "short_url")))
      && (!Truthy(Prop(w, "short_url")) && !Truthy(Prop(w, "slug")) && !Truthy(Prop(response, "short_url"))
          && Truthy(Prop(response, "slug")) ==>
            r == Ok(Str(ShortLink(baseUrl, Prop(response, "slug")))))
  {
    match WorkingObject(response)
    case Err(message) => Err(message)
    case Ok(w) =>
      if Truthy(w) && Truthy(Prop(w, "short_url")) then Ok(Prop(w, "short_url"))
      else if Truthy(w) && Truthy(Prop(w, "slug")) then Ok(Str(ShortLink(baseUrl, Prop(w, "slug"))))
      else if Truthy(Prop(response, "short_url")) then Ok(Prop(response, "short_url"))
      else if Truthy(Prop(response, "slug")) then Ok(Str(ShortLink(baseUrl, Prop(response, "slug"))))
      else Err(ExtractFailedMessage)
  }

  /** Extraction fails exactly when the body is null or undefined, or none of
      the four places holds a truthy value. */
  lemma ExtractFailsIff(response: JsValue, baseUrl: Option<string>)
    ensures ExtractShortUrl(response, baseUrl).Err? <==>
      || response.Null? || response.Undefined?
      || (var w := WorkingObject(response).value;
          && !Truthy(Prop(w, "short_url"))
          && !Truthy(Prop(w, "slug"))
          && !Truthy(Prop(response, "short_url"))
          && !Truthy(Prop(response, "slug")))
  {
  }

  /** A `null` body is not reported as an unusable answer: reading its
      `data` raises a TypeError ("Cannot read properties of null (reading
      'data')"), whose message reaches the banner with an attempted URL of
      "NaN". */
  lemma NullBodyRaisesTypeError(baseUrl: Option<string>)
    ensures ExtractShortUrl(Null, baseUrl) == Err(ReadErrorMessage(Null, "data"))
    ensures SubmitFailureText(NewError(ExtractShortUrl(Null, baseUrl).error)) ==
      ReadErrorMessage(Null, "data") + " (Attempted: NaN)"
  {
  }

  /** The documented answer `{ data: [{ short_url, ... }, ...] }` yields its
      first element's `short_url`, whatever else the body holds. */
  lemma ExtractFromDataArray(response: JsValue, first: map<string, JsValue>, rest: seq<JsValue>, url: string, baseUrl: Option<string>)
    requires Prop(response, "data") == Arr([Obj(first)] + rest)
    requires "short_url" in first && first["short_url"] == Str(url) && url != ""
    ensures ExtractShortUrl(response, baseUrl) == Ok(Str(url))
  {
  }

  /** A body without a truthy `data` is its own working object, so only its
      own `short_url` and `slug` decide the result: the two top-level
      fallbacks matter only for a truthy `data` that lacks both fields. */
  lemma TopLevelFallbacksNeedData(response: JsValue, baseUrl: Option<string>)
    requires !Truthy(Prop(response, "data"))
    ensures ExtractShortUrl(response, baseUrl).Ok? <==>
      Truthy(Prop(response, "short_url")) || Truthy(Prop(response, "slug"))
  {
  }

  /** The banner text after a failed submit: the error's message, or the
      generic text, followed by the URL the client says it attempted. That URL
      is `config.baseURL + config.url`, which prints "NaN" when the error
      carries no configuration. */
  function SubmitFailureText(error: JsValue): (s: string)
    ensures var shown := if Truthy(Prop(error, "message")) then ToStr(Prop(error, "message")) else SubmitFailedMessage;
      var config := Prop(error, "config");
      && s == shown + " (Attempted: " + PlusText(Prop(config, "baseURL"), Prop(config, "url")) + ")"
      && |s| >= |shown| + 14 && s[..|shown| + 13] == shown + " (Attempted: " && s[|s| - 1] == ')'
  {
    var config := Prop(error, "config");
    ToStr(Or(Prop(error, "message"), Str(SubmitFailedMessage)))
      + " (Attempted: " + PlusText(Prop(config, "baseURL"), Prop(config, "url")) + ")"
  }

  /** A response from which no URL can be extracted is reported with the
      extraction message and an attempted URL of "NaN". */
  lemma ExtractFailureText()
    ensures SubmitFailureText(NewError(ExtractFailedMessage)) ==
      "Unable to extract short URL from response (Attempted: NaN)"
  {
  }

  /** Every failure that comes through the HTTP helpers carries a truthy
      message, so the generic submit text is never shown for them; the
      attempted URL is the failed request's `baseURL` and `url`, whatever
      other fields its configuration holds. */
  lemma TransportFailureKeepsMessage(raw: JsValue, baseURL: string, url: string)
    requires !Api.IsTimeout(raw)
    requires Prop(Prop(raw, "config"), "baseURL") == Str(baseURL)
    requires Prop(Prop(raw, "config"), "url") == Str(url)
    ensures SubmitFailureText(Api.Reject(raw)) ==
      ToStr(Api.ChosenMessage(raw)) + " (Attempted: " + baseURL + url + ")"
  {
  }

  // ---------------------------------------------------------------- alias check

  /** What the check's `try` block reads from the transport's outcome: the
      answer's `available`, or None when it ends in the `catch` block (the
      request failed, or the body is null or undefined and reading from it
      throws). */
  function Availability(raw: Result<JsValue, JsValue>): (r: Option<JsValue>)
    ensures r.None? <==> raw.Err? || Prop(raw.value, "data").Null? || Prop(raw.value, "data").Undefined?
    ensures r.Some? ==> r.value == Prop(Prop(raw.value, "data"), "available")
  {
    match Api.Settle(raw)
    case Err(_) => None
    case Ok(body) => if Read(body, "available").Ok? then Some(Read(body, "available").value) else None
  }

  // ---------------------------------------------------------------- countdown

  /** One tick of the one-second timer, which runs only while a URL is shown
      and the countdown is positive. */
  function AfterTick(countdown: int, showing: bool): (c: int)
    ensures c == countdown || c == countdown - 1
    ensures c != countdown <==> showing && countdown > 0
    ensures countdown >= 0 ==> c >= 0
  {
    if showing && countdown > 0 then countdown - 1 else countdown
  }

  /** The countdown after n ticks with the panel shown throughout. */
  function AfterTicks(countdown: int, n: nat): int
    decreases n
  {
    if n == 0 then countdown else AfterTick(AfterTicks(countdown, n - 1), true)
  }

  /** From 15, n ticks leave max(15 - n, 0): one per tick, never below zero. */
  lemma {:induction false} CountdownFromStart(n: nat)
    ensures AfterTicks(CountdownStart, n) == if n <= CountdownStart then CountdownStart - n else 0
    decreases n
  {
    if n > 0 {
      CountdownFromStart(n - 1);
    }
  }

  // ---------------------------------------------------------------- the widget

  /** The widget's state. Besides the component's own state it records the
      timers and requests the effects and handlers leave pending: the armed
      debounce timer and the alias it will check, the alias checks and submits
      sent and not yet answered, the fade and clear timers of the success
      panel, and the "copied" resets scheduled by the copy button. */
  class QuickCreateForm {
    const baseUrl: Option<string>

    var destination: string
    var slugType: SlugType
    var customSlug: string

    var submitError: Option<string>
    var generatedUrl: JsValue          // null while no success panel is shown
    var isCopied: bool
    var isFadingOut: bool
    var countdown: int

    var isCheckingAlias: bool
    var isAliasAvailable: JsValue      // null, or the backend's `available`
    var aliasError: Option<string>

    var pendingCheck: Option<string>   // the debounce timer and its alias
    var checksInFlight: seq<string>    // aliases whose check awaits an answer
    var submitsInFlight: nat
    var fadePending: bool
    var clearPending: bool
    var copyResets: nat

    /** The alias whose answer `isAliasAvailable` holds, if any. */
    ghost var answeredSlug: Option<string>

    /** The success panel: the countdown stays within 0..15, the shown URL is
        null or truthy, and the timers, the fade and the copied mark exist only
        while a URL is shown. */
    ghost predicate PanelInvariant()
      reads this
    {
      && 0 <= countdown <= CountdownStart
      && (generatedUrl == Null || Truthy(generatedUrl))
      && (fadePending ==> Truthy(generatedUrl) && !isFadingOut)
      && (clearPending ==> Truthy(generatedUrl))
      && (isFadingOut ==> Truthy(generatedUrl))
      && (isCopied ==> Truthy(generatedUrl))
    }

    /** An armed debounce timer is for the non-empty custom alias in the field. */
    ghost predicate TimerMatchesAlias()
      reads this
    {
      pendingCheck.Some? ==> slugType == Custom && customSlug != "" && pendingCheck.value == customSlug
    }

    /** "Checking" is shown only while some check awaits its answer. */
    ghost predicate CheckingMeansInFlight()
      reads this
    {
      isCheckingAlias ==> |checksInFlight| > 0
    }

    ghost predicate Valid()
      reads this
    {
      PanelInvariant() && TimerMatchesAlias() && CheckingMeansInFlight()
    }

    /** The stored availability answer is the answer for the alias now in the
        field, in custom mode. */
    ghost predicate AnswerIsCurrent()
      reads this
    {
      isAliasAvailable != Null ==> slugType == Custom && answeredSlug == Some(customSlug)
    }

    constructor (baseUrl: Option<string>)
      ensures Valid() && AnswerIsCurrent()
      ensures this.baseUrl == baseUrl
      ensures destination == "" && slugType == Random && customSlug == ""
      ensures submitError == None && generatedUrl == Null && !isCopied && !isFadingOut && countdown == CountdownStart
      ensures !isCheckingAlias && isAliasAvailable == Null && aliasError == None
      ensures pendingCheck == None && checksInFlight == [] && submitsInFlight == 0
      ensures !fadePending && !clearPending && copyResets == 0
    {
      this.baseUrl := baseUrl;
      destination, slugType, customSlug := "", Random, "";
      submitError, generatedUrl, isCopied, isFadingOut, countdown := None, Null, false, false, CountdownStart;
      isCheckingAlias, isAliasAvailable, aliasError := false, Null, None;
      pendingCheck, checksInFlight, submitsInFlight := None, [], 0;
      fadePending, clearPending, copyResets := false, false, 0;
      answeredSlug := None;
    }

    function Values(): FormValues
      reads this
    {
      FormValues(destination, slugType, Some(customSlug))
    }

    /** Whether the submit button is enabled. */
    predicate ButtonEnabled()
      reads this
    {
      SubmitEnabled(slugType, isAliasAvailable, isCheckingAlias)
    }

    /** Typing in the destination field. */
    method SetDestination(s: string)
      requires Valid()
      modifies this`destination
      ensures Valid() && destination == s
    {
      destination := s;
    }

    /** The alias effect, run after the alias or the alias type changed: the
        armed timer is cleared, availability and its error are reset, and a
        new check is armed when a non-empty custom alias is entered. */
    method AliasChanged()
      requires PanelInvariant() && CheckingMeansInFlight()
      modifies this`pendingCheck, this`isAliasAvailable, this`aliasError, this`answeredSlug
      ensures Valid() && AnswerIsCurrent()
      ensures isAliasAvailable == Null && aliasError == None && answeredSlug == None
      ensures pendingCheck == if slugType == Custom && customSlug != "" then Some(customSlug) else None
    {
      pendingCheck := None;
      isAliasAvailable, aliasError := Null, None;
      answeredSlug := None;
      if slugType == Custom && customSlug != "" {
        pendingCheck := Some(customSlug);
      }
    }

    /** Typing in the custom alias field. A change resets the availability, so
        in custom mode the button stays disabled until a new answer arrives. */
    method SetCustomSlug(s: string)
      requires Valid()
      modifies this`customSlug, this`pendingCheck, this`isAliasAvailable, this`aliasError, this`answeredSlug
      ensures Valid() && customSlug == s
      ensures old(AnswerIsCurrent()) ==> AnswerIsCurrent()
      ensures s == old(customSlug) ==> unchanged(this)
      ensures s != old(customSlug) ==>
        && isAliasAvailable == Null && aliasError == None
        && pendingCheck == (if slugType == Custom && s != "" then Some(s) else None)
      ensures s != old(customSlug) && slugType == Custom ==> !ButtonEnabled()
    {
      if s != customSlug {
        customSlug := s;
        AliasChanged();
      }
    }

    /** Choosing random or custom. A change resets the availability. */
    method SetSlugType(t: SlugType)
      requires Valid()
      modifies this`slugType, this`pendingCheck, this`isAliasAvailable, this`aliasError, this`answeredSlug
      ensures Valid() && slugType == t
      ensures old(AnswerIsCurrent()) ==> AnswerIsCurrent()
      ensures t == old(slugType) ==> unchanged(this)
      ensures t != old(slugType) ==>
        && isAliasAvailable == Null && aliasError == None
        && pendingCheck == (if t == Custom && customSlug != "" then Some(customSlug) else None)
      ensures t != old(slugType) && t == Custom ==> !ButtonEnabled()
    {
      if t != slugType {
        slugType := t;
        AliasChanged();
      }
    }

    /** The debounce timer fires and checks the alias it was armed with. An
        alias shorter than three characters is not sent: availability and its
        error are cleared. Otherwise the check is sent (the returned request
        configuration) and the widget shows that it is checking. */
    method CheckTimerFires() returns (request: Option<Api.Config>)
      requires Valid() && pendingCheck.Some?
      modifies this`pendingCheck, this`isAliasAvailable, this`aliasError, this`answeredSlug,
               this`isCheckingAlias, this`checksInFlight
      ensures Valid() && pendingCheck == None
      ensures old(AnswerIsCurrent()) ==> AnswerIsCurrent()
      ensures var slug := old(pendingCheck.value);
        if |slug| < MinSlugLength then
          && request == None && isAliasAvailable == Null && aliasError == None
          && isCheckingAlias == old(isCheckingAlias) && checksInFlight == old(checksInFlight)
        else
          && request == Some(Api.GetConfig("/check/" + slug, None))
          && isCheckingAlias && aliasError == None
          && isAliasAvailable == old(isAliasAvailable) && checksInFlight == old(checksInFlight) + [slug]
    {
      var slug := pendingCheck.value;
      pendingCheck := None;
      if slug == "" || |slug| < MinSlugLength {
        isAliasAvailable, aliasError := Null, None;
        answeredSlug := None;
        request := None;
      } else {
        isCheckingAlias, aliasError := true, None;
        checksInFlight := checksInFlight + [slug];
        request := Some(Api.GetConfig("/check/" + slug, None));
      }
    }

    /** Store the answer to the check of `slug`; `raw` is the transport's
        outcome for that request. */
    method ApplyAnswer(slug: string, raw: Result<JsValue, JsValue>)
      requires PanelInvariant() && TimerMatchesAlias()
      modifies this`isAliasAvailable, this`aliasError, this`answeredSlug, this`isCheckingAlias
      ensures Valid() && !isCheckingAlias
      ensures Availability(raw).Some? ==>
        var available := Availability(raw).value;
        && isAliasAvailable == available
        && aliasError == (if Truthy(available) then old(aliasError) else Some(TakenMessage))
      ensures Availability(raw).None? ==> isAliasAvailable == Null && aliasError == Some(CheckFailedMessage)
      ensures isAliasAvailable != Null ==> answeredSlug == Some(slug)
    {
      match Availability(raw) {
        case Some(available) =>
          isAliasAvailable := available;
          answeredSlug := Some(slug);
          if !Truthy(available) {
            aliasError := Some(TakenMessage);
          }
        case None =>
          aliasError := Some(CheckFailedMessage);
          isAliasAvailable := Null;
          answeredSlug := None;
      }
      isCheckingAlias := false;
    }

    /** The k-th outstanding alias check is answered. As the component does
        it, the answer is stored whatever the alias field holds by now. */
    method CheckResolves(k: nat, raw: Result<JsValue, JsValue>)
      requires Valid() && k < |checksInFlight|
      modifies this`isAliasAvailable, this`aliasError, this`answeredSlug, this`isCheckingAlias, this`checksInFlight
      ensures Valid() && !isCheckingAlias
      ensures checksInFlight == old(checksInFlight[..k] + checksInFlight[k + 1..])
      ensures Availability(raw).Some? ==>
        var available := Availability(raw).value;
        && isAliasAvailable == available
        && aliasError == (if Truthy(available) then old(aliasError) else Some(TakenMessage))
      ensures Availability(raw).None? ==> isAliasAvailable == Null && aliasError == Some(CheckFailedMessage)
    {
      var slug := checksInFlight[k];
      checksInFlight := checksInFlight[..k] + checksInFlight[k + 1..];
      ApplyAnswer(slug, raw);
    }

    /** The k-th outstanding alias check is answered, and the answer is stored
        only when it is for the alias now in the field in custom mode; a stale
        answer is dropped. Keeps AnswerIsCurrent. */
    method CheckResolvesIfCurrent(k: nat, raw: Result<JsValue, JsValue>)
      requires Valid() && k < |checksInFlight|
      modifies this`isAliasAvailable, this`aliasError, this`answeredSlug, this`isCheckingAlias, this`checksInFlight
      ensures Valid()
      ensures old(AnswerIsCurrent()) ==> AnswerIsCurrent()
      ensures checksInFlight == old(checksInFlight[..k] + checksInFlight[k + 1..])
      ensures var current := old(slugType == Custom && checksInFlight[k] == customSlug);
        if current then
          && !isCheckingAlias
          && (Availability(raw).Some? ==>
                var available := Availability(raw).value;
                && isAliasAvailable == available
                && aliasError == (if Truthy(available) then old(aliasError) else Some(TakenMessage)))
          && (Availability(raw).None? ==> isAliasAvailable == Null && aliasError == Some(CheckFailedMessage))
        else
          && isAliasAvailable == old(isAliasAvailable) && aliasError == old(aliasError)
          && isCheckingAlias == (old(isCheckingAlias) && |checksInFlight| > 0)
    {
      var slug := checksInFlight[k];
      checksInFlight := checksInFlight[..k] + checksInFlight[k + 1..];
      if slugType == Custom && slug == customSlug {
        ApplyAnswer(slug, raw);
      } else {
        isCheckingAlias := isCheckingAlias && |checksInFlight| > 0;
      }
    }

    /** `setGeneratedUrl` followed by the auto-hide effect: a change clears
        the panel's timers; a new URL restarts the countdown at 15, stops any
        fade and arms the fade and clear timers. */
    method ShowUrl(url: JsValue)
      requires Valid() && (url == Null || Truthy(url))
      requires url == Null ==> !isFadingOut && !isCopied
      modifies this`generatedUrl, this`countdown, this`isFadingOut, this`fadePending, this`clearPending
      ensures Valid() && generatedUrl == url
      ensures url == old(generatedUrl) ==> unchanged(this)
      ensures url != old(generatedUrl) && Truthy(url) ==>
        countdown == CountdownStart && !isFadingOut && fadePending && clearPending
      ensures url == Null ==> !fadePending && !clearPending && countdown == old(countdown)
    {
      if url != generatedUrl {
        generatedUrl := url;
        fadePending, clearPending := false, false;
        if Truthy(url) {
          countdown, isFadingOut := CountdownStart, false;
          fadePending, clearPending := true, true;
        }
      }
    }

    /** Pressing the submit button. Nothing happens while it is disabled or
        when the form does not validate. Otherwise the error, the shown URL,
        the copied mark and the fade are cleared and the returned request is
        sent: a POST of the payload to `/shorten`. */
    method Submit(isUrl: string -> bool) returns (request: Option<Api.Config>)
      requires Valid()
      modifies this`submitError, this`generatedUrl, this`isCopied, this`isFadingOut, this`countdown,
               this`fadePending, this`clearPending, this`submitsInFlight
      ensures Valid()
      ensures request.Some? <==> old(ButtonEnabled()) && FormValid(Values(), isUrl)
      ensures request.None? ==> unchanged(this)
      ensures request.Some? ==>
        && request.value == Api.PostConfig("/shorten", Payload(Values()), None)
        && submitError == None && generatedUrl == Null && !isCopied && !isFadingOut
        && !fadePending && !clearPending && countdown == old(countdown)
        && submitsInFlight == old(submitsInFlight) + 1
    {
      if !ButtonEnabled() || !FormValid(Values(), isUrl) {
        request := None;
        return;
      }
      submitError := None;
      isCopied, isFadingOut := false, false;
      ShowUrl(Null);
      submitsInFlight := submitsInFlight + 1;
      request := Some(Api.PostConfig("/shorten", Payload(Values()), None));
    }

    /** An outstanding submit is answered: the extracted short URL is shown,
        or the failure is reported in the banner. */
    method SubmitResolves(raw: Result<JsValue, JsValue>)
      requires Valid() && submitsInFlight > 0
      modifies this`submitError, this`generatedUrl, this`countdown, this`isFadingOut,
               this`fadePending, this`clearPending, this`submitsInFlight
      ensures Valid() && submitsInFlight == old(submitsInFlight) - 1
      ensures var settled := Api.Settle(raw);
        if settled.Ok? && ExtractShortUrl(settled.value, baseUrl).Ok? then
          var url := ExtractShortUrl(settled.value, baseUrl).value;
          && generatedUrl == url && submitError == old(submitError)
          && if url != old(generatedUrl) then
               countdown == CountdownStart && !isFadingOut && fadePending && clearPending
             else
               && countdown == old(countdown) && isFadingOut == old(isFadingOut)
               && fadePending == old(fadePending) && clearPending == old(clearPending)
        else
          && generatedUrl == old(generatedUrl) && countdown == old(countdown) && isFadingOut == old(isFadingOut)
          && fadePending == old(fadePending) && clearPending == old(clearPending)
          && submitError == Some(SubmitFailureText(
               if settled.Ok? then NewError(ExtractShortUrl(settled.value, baseUrl).error) else settled.error))
    {
      submitsInFlight := submitsInFlight - 1;
      match Api.Settle(raw)
      case Ok(body) =>
        match ExtractShortUrl(body, baseUrl) {
          case Ok(url) => ShowUrl(url);
          case Err(message) => submitError := Some(SubmitFailureText(NewError(message)));
        }
      case Err(error) =>
        submitError := Some(SubmitFailureText(error));
    }

    /** The one-second countdown timer fires. */
    method Tick()
      requires Valid()
      modifies this`countdown
      ensures Valid()
      ensures countdown == AfterTick(old(countdown), Truthy(generatedUrl))
    {
      countdown := AfterTick(countdown, Truthy(generatedUrl));
    }

    /** The fade timer fires: the panel starts fading out. */
    method FadeTimerFires()
      requires Valid() && fadePending
      modifies this`isFadingOut, this`fadePending
      ensures Valid() && isFadingOut && !fadePending
    {
      isFadingOut, fadePending := true, false;
    }

    /** The clear timer fires: the panel is dismissed. */
    method ClearTimerFires()
      requires Valid() && clearPending
      modifies this`generatedUrl, this`isCopied, this`isFadingOut, this`countdown, this`fadePending, this`clearPending
      ensures Valid()
      ensures generatedUrl == Null && !isCopied && !isFadingOut
      ensures !fadePending && !clearPending && countdown == old(countdown)
    {
      isCopied, isFadingOut := false, false;
      ShowUrl(Null);
    }

    /** The copy button: with a URL shown, its text is written to the
        clipboard (`text`); when the write succeeds the button shows "copied"
        and a reset is scheduled. Without a URL nothing happens. */
    method Copy(writeSucceeds: bool) returns (text: Option<string>)
      requires Valid()
      modifies this`isCopied, this`copyResets
      ensures Valid()
      ensures text.Some? <==> Truthy(generatedUrl)
      ensures text.Some? ==> text.value == ToStr(generatedUrl)
      ensures if text.Some? && writeSucceeds then isCopied && copyResets == old(copyResets) + 1
              else unchanged(this)
    {
      if !Truthy(generatedUrl) {
        return None;
      }
      text := Some(ToStr(generatedUrl));
      if writeSucceeds {
        isCopied := true;
        copyResets := copyResets + 1;
      }
    }

    /** With stale answers dropped (AnswerIsCurrent, which the corrected
        handler and every other event method preserve), an enabled button in
        custom mode means the stored `true` answers the check of exactly the
        alias in the field. */
    lemma EnabledMeansCurrentAlias()
      requires AnswerIsCurrent() && ButtonEnabled() && slugType == Custom
      ensures answeredSlug == Some(customSlug) && isAliasAvailable == Bool(true)
    {
    }

    /** A scheduled "copied" reset fires two seconds after a copy. */
    method CopyResetFires()
      requires Valid() && copyResets > 0
      modifies this`isCopied, this`copyResets
      ensures Valid() && !isCopied && copyResets == old(copyResets) - 1
    {
      isCopied := false;
      copyResets := copyResets - 1;
    }
  }

  /** As the component handles alias checks, an answer that arrives after the
      alias was edited is still stored: the check of "abc" answers `true`
      after the field changed to "abcd", and the submit button is enabled for
      an alias that was never checked. */
  method StaleAnswerEnablesSubmit() returns (checked: JsValue, typed: string, enabled: bool)
    ensures checked == Str("/check/abc") && typed == "abcd" && enabled
  {
    var form := new QuickCreateForm(Some("https://sho.rt"));
    form.SetSlugType(Custom);
    form.SetCustomSlug("abc");
    var request := form.CheckTimerFires();
    checked := request.value["url"];
    form.SetCustomSlug("abcd");
    form.CheckResolves(0, Ok(Obj(map["data" := Obj(map["available" := Bool(true)])])));
    typed := form.customSlug;
    enabled := form.ButtonEnabled();
  }

  /** The same events with stale answers dropped: the button stays disabled
      until the alias in the field has been checked. */
  method StaleAnswerDropped() returns (checked: JsValue, typed: string, enabled: bool)
    ensures checked == Str("/check/abc") && typed == "abcd" && !enabled
  {
    var form := new QuickCreateForm(Some("https://sho.rt"));
    form.SetSlugType(Custom);
    form.SetCustomSlug("abc");
    var request := form.CheckTimerFires();
    checked := request.value["url"];
    form.SetCustomSlug("abcd");
    form.CheckResolvesIfCurrent(0, Ok(Obj(map["data" := Obj(map["available" := Bool(true)])])));
    typed := form.customSlug;
    enabled := form.ButtonEnabled();
  }

}

=== FILE: recent_links.dfy ===
/** The dashboard's recent-links card: the list fetched once when the card
    appears, its loading and error state, the copy button, the shortening of
    long destinations, the relative age of each link, and which of the four
    screens the card shows. */
module RecentLinks {
  import opened Wrappers
  import opened Js
  import Decimal
  import Api

  datatype UrlData = UrlData(id: int, slug: string, destinationUrl: string, createdAt: string, clickCount: Option<int>)

  const DefaultMaxLength := 40
  const Ellipsis := "..."
  const LoadFailedMessage := "Failed to load recent links"
  const FooterThreshold := 10

  // ---------------------------------------------------------------- truncateUrl

  /** `truncateUrl(url, maxLength)`: the URL itself when it fits, else its first
      `maxLength` characters and "..." (`substring` treats a negative end as 0). */
  function Truncate(url: string, maxLength: int): (r: string)
    ensures |url| <= maxLength ==> r == url
    ensures |url| > maxLength && maxLength >= 0 ==>
      |r| == maxLength + 3 && r[..maxLength] == url[..maxLength] && r[maxLength..] == Ellipsis
    ensures |url| > maxLength && maxLength < 0 ==> r == Ellipsis
  {
    if |url| <= maxLength then url
    else url[..if maxLength < 0 then 0 else maxLength] + Ellipsis
  }

  /** With the default limit the text shown is never longer than 43
      characters and always starts with (at most 40 characters of) the URL. */
  lemma TruncateDefault(url: string)
    ensures |Truncate(url, DefaultMaxLength)| <= DefaultMaxLength + 3
    ensures |url| <= DefaultMaxLength ==> Truncate(url, DefaultMaxLength) == url
    ensures |url| > DefaultMaxLength ==>
      Truncate(url, DefaultMaxLength) == url[..DefaultMaxLength] + Ellipsis
  {
  }

  // ---------------------------------------------------------------- formatDate

  /** The bucket `formatDate` picks for a creation time. */
  datatype Age = JustNow | MinutesAgo(minutes: int) | HoursAgo(hours: int) | DaysAgo(days: int) | CalendarDate

  const MsPerMinute := 60000
  const MsPerHour := 3600000
  const MsPerDay := 86400000

  /** The bucket for the milliseconds elapsed since creation; None stands for
      NaN (an unparsable creation date), which fails every comparison. The
      counts are floored (`/` on a positive divisor floors). */
  function AgeOf(diffInMs: Option<int>): (a: Age)
    ensures diffInMs.None? ==> a == CalendarDate
    ensures diffInMs.Some? ==> var ms := diffInMs.value;
      && (a == JustNow <==> ms < MsPerMinute)
      && (a.MinutesAgo? <==> MsPerMinute <= ms < MsPerHour)
      && (a.HoursAgo? <==> MsPerHour <= ms < MsPerDay)
      && (a.DaysAgo? <==> MsPerDay <= ms < 7 * MsPerDay)
      && (a == CalendarDate <==> ms >= 7 * MsPerDay)
      && (a.MinutesAgo? ==> a.minutes * MsPerMinute <= ms < (a.minutes + 1) * MsPerMinute)
      && (a.HoursAgo? ==> a.hours * MsPerHour <= ms < (a.hours + 1) * MsPerHour)
      && (a.DaysAgo? ==> a.days * MsPerDay <= ms < (a.days + 1) * MsPerDay)
  {
    match diffInMs
    case None => CalendarDate
    case Some(ms) =>
      var minutes := ms / MsPerMinute;
      var hours := ms / MsPerHour;
      var days := ms / MsPerDay;
      if minutes < 1 then JustNow
      else if minutes < 60 then MinutesAgo(minutes)
      else if hours < 24 then HoursAgo(hours)
      else if days < 7 then DaysAgo(days)
      else CalendarDate
  }

  /** The buckets in the order `formatDate` tries them. */
  function Rank(a: Age): nat {
    match a
    case JustNow => 0
    case MinutesAgo(_) => 1
    case HoursAgo(_) => 2
    case DaysAgo(_) => 3
    case CalendarDate => 4
  }

  /** An older link never lands in an earlier bucket. */
  lemma AgeMonotone(ms1: int, ms2: int)
    requires ms1 <= ms2
    ensures Rank(AgeOf(Some(ms1))) <= Rank(AgeOf(Some(ms2)))
  {
  }

  /** The text shown; `calendarText` is the browser's short date for the
      creation time, used for links a week old or more. */
  function AgeLabel(a: Age, calendarText: string): (s: string)
    ensures a == JustNow ==> s == "Just now"
    ensures a == CalendarDate ==> s == calendarText
    ensures a.MinutesAgo? ==> |s| > 5 && s[..|s| - 5] == Decimal.IntToDecimal(a.minutes) && s[|s| - 5..] == "m ago"
    ensures a.HoursAgo? ==> |s| > 5 && s[..|s| - 5] == Decimal.IntToDecimal(a.hours) && s[|s| - 5..] == "h ago"
    ensures a.DaysAgo? ==> |s| > 5 && s[..|s| - 5] == Decimal.IntToDecimal(a.days) && s[|s| - 5..] == "d ago"
  {
    match a
    case JustNow => "Just now"
    case MinutesAgo(m) => Decimal.IntToDecimal(m) + "m ago"
    case HoursAgo(h) => Decimal.IntToDecimal(h) + "h ago"
    case DaysAgo(d) => Decimal.IntToDecimal(d) + "d ago"
    case CalendarDate => calendarText
  }

  /** `formatDate`: the label of the bucket for the elapsed time. */
  function FormatDate(diffInMs: Option<int>, calendarText: string): (s: string)
    ensures AgeOf(diffInMs) == JustNow ==> s == "Just now"
    ensures AgeOf(diffInMs) == CalendarDate ==> s == calendarText
    ensures AgeOf(diffInMs).MinutesAgo? ==> |s| > 5 && s[|s| - 5..] == "m ago"
    ensures AgeOf(diffInMs).HoursAgo? ==> |s| > 5 && s[|s| - 5..] == "h ago"
    ensures AgeOf(diffInMs).DaysAgo? ==> |s| > 5 && s[|s| - 5..] == "d ago"
  {
    AgeLabel(AgeOf(diffInMs), calendarText)
  }

  /** A relative label shows the floored count: the digits before the unit
      read back as the number of whole minutes (hours, days) elapsed. */
  lemma {:induction false} LabelShowsCount(ms: int)
    requires MsPerMinute <= ms < 7 * MsPerDay
    ensures var s := FormatDate(Some(ms), "");
      && |s| > 5 && Decimal.AllDigits(s[..|s| - 5])
      && Decimal.ValueOf(s[..|s| - 5]) ==
         (if ms < MsPerHour then ms / MsPerMinute else if ms < MsPerDay then ms / MsPerHour else ms / MsPerDay)
  {
    var a := AgeOf(Some(ms));
    var n: nat := if ms < MsPerHour then ms / MsPerMinute else if ms < MsPerDay then ms / MsPerHour else ms / MsPerDay;
    var s := FormatDate(Some(ms), "");
    Decimal.ValueOfNatToDecimal(n);
    assert s[..|s| - 5] == Decimal.NatToDecimal(n);
  }

  // ---------------------------------------------------------------- rendering

  /** One row of the list. */
  datatype Row = Row(href: string, copied: bool, destinationText: string, destinationTitle: string,
                     clicks: Option<int>, age: string)

  /** What the card shows. */
  datatype Screen = Spinner | ErrorNotice(message: string) | NoLinksYet | LinkList(rows: seq<Row>, viewAllFooter: bool)

  /** The row for a link; `elapsed` gives the milliseconds since a creation
      date (None when it does not parse) and `calendar` its short date. */
  function RowFor(link: UrlData, baseUrl: Option<string>, copiedId: Option<int>,
                  elapsed: string -> Option<int>, calendar: string -> string): (r: Row)
    ensures r.href == ShortLink(baseUrl, Str(link.slug))
    ensures r.copied <==> copiedId == Some(link.id)
    ensures r.destinationTitle == link.destinationUrl
    ensures r.destinationText == Truncate(link.destinationUrl, DefaultMaxLength)
    ensures |r.destinationText| <= DefaultMaxLength + 3
    ensures r.clicks == link.clickCount
    ensures r.age == FormatDate(elapsed(link.createdAt), calendar(link.createdAt))
  {
    TruncateDefault(link.destinationUrl);
    Row(ShortLink(baseUrl, Str(link.slug)), copiedId == Some(link.id),
        Truncate(link.destinationUrl, DefaultMaxLength), link.destinationUrl, link.clickCount,
        FormatDate(elapsed(link.createdAt), calendar(link.createdAt)))
  }

  /** The screen, in order of precedence: loading, then a (non-empty) error,
      then "No links yet" for an empty list, then the list, with the "View all
      links" footer only from ten links on. */
  function Render(isLoading: bool, error: Option<string>, links: seq<UrlData>, baseUrl: Option<string>,
                  copiedId: Option<int>, elapsed: string -> Option<int>, calendar: string -> string): (v: Screen)
    ensures isLoading <==> v == Spinner
    ensures v.ErrorNotice? <==> !isLoading && error.Some? && error.value != ""
    ensures v.ErrorNotice? ==> v.message == error.value
    ensures v == NoLinksYet <==> !isLoading && (error.None? || error.value == "") && links == []
    ensures v.LinkList? ==>
      && |v.rows| == |links| && (v.viewAllFooter <==> |links| >= FooterThreshold)
      && forall i :: 0 <= i < |links| ==> v.rows[i] == RowFor(links[i], baseUrl, copiedId, elapsed, calendar)
  {
    if isLoading then Spinner
    else if error.Some? && error.value != "" then ErrorNotice(error.value)
    else if |links| == 0 then NoLinksYet
    else LinkList(seq(|links|, i requires 0 <= i < |links| => RowFor(links[i], baseUrl, copiedId, elapsed, calendar)),
                  |links| >= FooterThreshold)
  }

  // ---------------------------------------------------------------- the card

  class RecentLinksCard {
    const baseUrl: Option<string>
    var links: seq<UrlData>
    var isLoading: bool
    var error: Option<string>
    var copiedId: Option<int>
    var copyResets: nat          // "copied" resets scheduled, two seconds after a copy

    /** The list is fetched once: while it loads there is neither a list nor
        an error, and the only error is the load failure. */
    ghost predicate Valid()
      reads this
    {
      && (isLoading ==> links == [] && error == None)
      && (error.Some? ==> error.value == LoadFailedMessage)
    }

    /** The card appears, loading. */
    constructor (baseUrl: Option<string>)
      ensures Valid() && this.baseUrl == baseUrl
      ensures isLoading && links == [] && error == None && copiedId == None && copyResets == 0
    {
      this.baseUrl := baseUrl;
      links, isLoading, error, copiedId, copyResets := [], true, None, None, 0;
    }

    /** The effect run once the card has appeared: loading is (still) on and
        the returned request, a GET of the five most recent links, is sent. */
    method FetchStarts() returns (request: Api.Config)
      requires Valid() && isLoading
      ensures request == Api.GetConfig("/recent?limit=5", None)
      ensures request["method"] == Str("GET") && request["url"] == Str("/recent?limit=5")
      ensures request.Keys == {"method", "url"}
    {
      request := Api.GetConfig("/recent?limit=5", None);
    }

    /** The fetch is answered: `outcome` is the response's `data` field (None
        when absent) or the rejection. Loading ends either way. */
    method FetchResolves(outcome: Result<Option<seq<UrlData>>, JsValue>)
      requires Valid() && isLoading
      modifies this`links, this`isLoading, this`error
      ensures Valid() && !isLoading
      ensures outcome.Ok? ==> error == None && links == (if outcome.value.Some? then outcome.value.value else [])
      ensures outcome.Err? ==> error == Some(LoadFailedMessage) && links == []
    {
      match outcome {
        case Ok(data) => links := if data.Some? then data.value else [];
        case Err(_) => error := Some(LoadFailedMessage);
      }
      isLoading := false;
    }

    /** The copy button of the link with `slug` and `id`: its short URL is the
        text written to the clipboard, and only a successful write marks that
        link as copied. */
    method Copy(slug: string, id: int, writeSucceeds: bool) returns (text: string)
      requires Valid()
      modifies this`copiedId, this`copyResets
      ensures Valid()
      ensures text == ShortLink(baseUrl, Str(slug))
      ensures writeSucceeds ==> copiedId == Some(id) && copyResets == old(copyResets) + 1
      ensures !writeSucceeds ==> unchanged(this)
    {
      text := ShortLink(baseUrl, Str(slug));
      if writeSucceeds {
        copiedId := Some(id);
        copyResets := copyResets + 1;
      }
    }

    /** A scheduled reset fires and clears the copied mark. */
    method CopyResetFires()
      requires Valid() && copyResets > 0
      modifies this`copiedId, this`copyResets
      ensures Valid() && copiedId == None && copyResets == old(copyResets) - 1
    {
      copiedId := None;
      copyResets := copyResets - 1;
    }

    /** The screen the card shows now. */
    function CurrentScreen(elapsed: string -> Option<int>, calendar: string -> string): (v: Screen)
      reads this
      requires Valid()
      ensures isLoading ==> v == Spinner
      ensures !isLoading && error.Some? ==> v == ErrorNotice(LoadFailedMessage)
      ensures v.LinkList? ==> |v.rows| == |links| > 0
    {
      Render(isLoading, error, links, baseUrl, copiedId, elapsed, calendar)
    }
  }
}

=== FILE: wrappers.dfy ===
/** Optional values and results, used for JavaScript's `T | null` state and for
    operations that either produce a value or raise an error. */
module Wrappers {

  datatype Option<+T> = None | Some(value: T)

  datatype Result<+T, +E> = Ok(value: T) | Err(error: E)
}
